=== FILE: README.md ===
# AgriTrust batch ledger — a Dafny model

This project models the server-side core of AgriTrust, which registers
agricultural product batches. Registration (`createBatch`) checks five
request fields, draws a uuid `batchId`, and fingerprints the inputs with
SHA-256. It then asks the blockchain adapter for a transaction reference,
builds a `Batch` record and saves it. Lookup (`getBatchById`) resolves a
`batchId` to a record or to 404. The record store is a JSON file. It is
modelled as abstract state: missing, a sequence of records, or unparsable.
The adapter writes to a Polygon contract when it is configured. Otherwise, or
when the write fails, it makes up a Keccak-256 reference. The model also
covers the pure helpers of the insight simulator: the month-to-season map,
the risk-factor draw, and the report's text selection.

Modules, one per file:

- `Outcomes` (`outcomes.dfy`): `Option` and `Result`.
- `JsValues` (`js_values.dfy`): request values, JavaScript truthiness, and the string form a template literal gives.
- `Hex` (`hex.dfy`): bytes, 256-bit digests, lowercase hex encoding and its decoder.
- `BlockchainSimulator` (`blockchain_simulator.dfy`): `generateBlockchainHash`.
- `BlockchainService` (`blockchain_service.dfy`): the adapter's configuration, its three-branch `storeBatchOnChain`, `verifyBatchOnChain` and `getExplorerUrl`.
- `BatchModel` (`batch_model.dfy`): the `Batch` constructor and `create`, `findOne`, `find` and `save` over the data file.
- `BatchController` (`batch_controller.dfy`): `createBatch` and `getBatchById`. Requests and responses are plain records, and `effects` lists the outside calls in order.
- `AiSimulation` (`ai_simulation.dfy`): `getCurrentSeason`, `getCurrentRiskFactors`, and the four text generators with `generateAIReport`.

These are parameters, never computed:

- SHA-256 and Keccak-256, as functions from a string to 32 bytes. Each includes the UTF-8 encoding step.
- `uuidv4()`, `Date.now()` and every `new Date()` reading.
- `new Date(harvestDate)` parsing.
- The chain's answers to `storeBatch`/`wait` and to `getBatchHash`.
- Every `Math.random()` draw, as a real in [0, 1).
- The month `getMonth()` returns.

## Model

| member | source | states |
|---|---|---|
| `JsValues.ToStr` | server/controllers/batchController.js:24 | A template literal inserts a string unchanged. A non-negative number becomes canonical digits that read back as the number, and a negative one `-` followed by the digits of its absolute value. Booleans, null and undefined become 'true'/'false', 'null' and 'undefined'. The result is empty only for the empty string. |
| `JsValues.NumberSpellingInjective` | server/controllers/batchController.js:24 | Two numbers are spelled alike exactly when they are equal. |
| `JsValues.IntToDecimal` | server/utils/blockchainService.js:35 | A timestamp prints as canonical digits with the number's value, after a `-` when negative, and always ends in a digit. |
| `JsValues.CanonicalDecimalUnique` | server/controllers/batchController.js:24 | A number has only one canonical digit spelling: any other digit string with its value has a leading zero. |
| `JsValues.DecimalRoundTrip` | server/controllers/batchController.js:24 | Reading back the decimal digits a number prints as gives the number again. |
| `Hex.DecodeEncode` | server/utils/blockchainSimulator.js:13 | Hex encoding is lossless: decoding the lowercase hex spelling gives back the digest bytes. |
| `BlockchainSimulator.GenerateBlockchainHash` | server/utils/blockchainSimulator.js:8-19 | Resolves exactly when the argument is a string. The value is 64 lowercase hex characters that decode to SHA-256 of that string, with no salt. A non-string argument rejects the promise instead. |
| `BlockchainSimulator.FingerprintsAgreeIffDigestsAgree` | server/utils/blockchainSimulator.js:11-13 | Two fingerprints are equal exactly when the underlying SHA-256 digests are equal. |
| `BlockchainService.NewService` | server/utils/blockchainService.js:4-21 | A wallet exists only with a set key AND a provider. The service is configured exactly when URL, key and contract address are all set and non-empty. |
| `BlockchainService.MockTransactionHash` | server/utils/blockchainService.js:35 | The stand-in reference is `0x` and then 64 lowercase hex digits, which decode to the Keccak-256 digest of the preimage. |
| `BlockchainService.StoreBatchOnChain` | server/utils/blockchainService.js:29-66 | Always reports success. `fallbackUsed` is false exactly on the configured-and-mined branch, and then the reference is `tx.hash`. Every other branch returns the mock hash of the timestamped preimage; after a failed write the preimage carries `-error` and the error message is returned. The contract address is returned whenever it is set, on every branch, and the placeholder only when it is not. |
| `BlockchainService.FallbackPreimagesDiffer` | server/utils/blockchainService.js:35-60 | A failed-write preimage never equals an unconfigured-branch preimage, whatever the ids, hashes and clock readings. |
| `BlockchainService.ConfigurationGatesTheChain` | server/utils/blockchainService.js:24-26 | `isConfigured()` is exactly what lets a mined write count as a real transaction and a returned read as a success. |
| `BlockchainService.VerifyBatchOnChain` | server/utils/blockchainService.js:69-90 | Succeeds exactly when configured and the read returns. It then reports the stored hash and `exists` iff that hash is non-empty. Otherwise it fails with no `exists`: the error is 'Blockchain not configured' when unconfigured and the thrown message when the read fails. |
| `BlockchainService.GetExplorerUrl` | server/utils/blockchainService.js:93-98 | Null exactly for a falsy hash. Otherwise the Amoy explorer prefix, and after the prefix exactly the hash's string form. |
| `BatchModel.NewBatch` | server/models/Batch.js:28-40 | Copies the data fields. A falsy transaction hash becomes null, and the transport status is always truthy, 'In Transit' by default. `createdAt`/`updatedAt` come from the two clock readings, ordered when the clock is. |
| `BatchModel.ReconstructKeepsFields` | server/models/Batch.js:36-37 | The constructor's defaults are idempotent: rebuilding a record from its own fields changes only the timestamps. |
| `BatchModel.ReadData` | server/models/Batch.js:14-20 | A missing file reads as the empty collection. Only an unparsable file fails. |
| `BatchModel.FirstIndex` | server/models/Batch.js:79 | `findIndex` gives the first position holding the id, or none exactly when no record holds it. |
| `BatchModel.Create` | server/models/Batch.js:43-49 | Appends exactly one record, the constructed instance, at the end. All earlier records are kept in order, and an existing id is not rejected. |
| `BatchModel.CreateKeepsUniqueIdsIff` | server/models/Batch.js:43-49 | On a store with unique ids, `create` keeps them unique exactly when the new id is not stored yet. |
| `BatchModel.CreateThenFindOne` | server/models/Batch.js:43-58 | After `create`, a lookup of the new id returns the new record only if the id was fresh. Otherwise the older record shadows it. |
| `BatchModel.FindOne` | server/models/Batch.js:51-58 | Null exactly when the queried id is falsy or no record holds it. Otherwise it returns the first record holding it. |
| `BatchModel.Filter` | server/models/Batch.js:66-73 | The result is an order-preserving subsequence of the records. Every element matches the query, and every matching record is kept. |
| `BatchModel.FilterSnoc` | server/models/Batch.js:66-73 | One more record at the end is added to the result exactly when it matches the query. |
| `BatchModel.EmptyQueryFilterIsIdentity` | server/models/Batch.js:62-64 | The empty-query shortcut agrees with filtering: with no keys, every record is kept. |
| `BatchModel.Find` | server/models/Batch.js:60-74 | The empty query returns the whole collection. Any other query returns the order-preserving subsequence of records strictly equal to the query on every key. For every query the result equals filtering, so each matching record comes back as often as it is stored. |
| `BatchModel.Save` | server/models/Batch.js:77-86 | Writes exactly when the id is already stored. Only the first matching index is replaced, by the instance with a refreshed `updatedAt`, and the length and all other records stay the same. An absent id leaves the file untouched and returns the instance unchanged. |
| `BatchModel.SaveKeepsUniqueIds` | server/models/Batch.js:79-83 | `save` preserves id uniqueness. |
| `BatchModel.SaveKeepsTimestampsOrdered` | server/models/Batch.js:80-83 | Under a clock not earlier than creation, `save` keeps `updatedAt >= createdAt` for every stored record. |
| `BatchModel.SaveThenFindOne` | server/models/Batch.js:77-86 | After a save that wrote, looking the id up returns the saved instance. After a save that did not write, the id stays unknown. |
| `BatchModel.SaveOrInsert` | server/models/Batch.js:77-86 | Corrected save: agrees with `save` when the id is stored, and otherwise appends the instance. |
| `BatchModel.SaveOrInsertKeepsUniqueIds` | server/models/Batch.js:77-86 | The corrected save keeps ids unique unconditionally. |
| `BatchModel.SaveOrInsertThenFindOne` | server/models/Batch.js:77-86 | With the corrected save, whatever is saved is found again under its id. |
| `BatchController.HashPreimage` | server/controllers/batchController.js:24 | The preimage is the five fields' template-literal texts, in order and without separators, followed by the id as its tail. |
| `BatchController.FreshIdSeparatesPreimages` | server/controllers/batchController.js:21-24 | The same request under two different ids of equal length gives two different preimages. |
| `BatchController.Fingerprint` | server/controllers/batchController.js:24-25 | The fingerprint is 64 lowercase hex characters, decoding to SHA-256 of the separator-free concatenation of the five raw fields and the id. Hashing cannot reject here. |
| `BatchController.BuildBatch` | server/controllers/batchController.js:21-43 | The record carries the request fields, the harvest date converted to a Date, and the fresh id. It also carries the fingerprint over the RAW harvest date, the anchor's transaction hash (null only if that is empty) and 'In Transit'. `fallbackUsed` is not stored. |
| `BatchController.RegistrationEffects` | server/controllers/batchController.js:20-45 | A valid registration draws the id, then hashes, then reads the file, and writes nothing before that. The contract is called exactly when the service is configured. |
| `BatchController.CreateBatch` | server/controllers/batchController.js:8-56 | 400 'All fields are required' exactly when a field is falsy, with no effects and the file unchanged. An unreadable file goes to `next` with nothing written. Otherwise always 201 'Batch created successfully' with exactly what `save()` returned for the built record. The file afterwards is whatever that `save()` left. The outside calls are the registration sequence (id, hash, contract write when configured, file read), followed by a file write exactly when `save()` wrote. |
| `BatchController.GetBatchById` | server/controllers/batchController.js:59-80 | 404 'Batch not found' exactly when the id is empty or not stored, and `next` on an unreadable file. Every other answer is 200 with the first record holding the id and no message. It never writes. |
| `BatchController.QuantityCheckIsTruthiness` | server/controllers/batchController.js:13 | With the other fields present, the request is rejected exactly when `quantity` is falsy. A negative number is accepted. |
| `BatchController.PreimageNotInjective` | server/controllers/batchController.js:24 | Two different requests can have the same preimage and fingerprint: 'ab'+'c' against 'a'+'bc', and quantity 500 against '500'. |
| `BatchController.FingerprintRecomputable` | server/controllers/batchController.js:24-35 | The stored fingerprint is recomputed exactly from the raw request fields and the returned id. |
| `BatchController.FallbackStillRegisters` | server/controllers/batchController.js:39-52 | When the anchor falls back, registration still answers 201. The record then carries a 66-character `0x` hex reference. |
| `BatchController.ContractCalledOnlyWhenConfigured` | server/controllers/batchController.js:39 | A valid registration makes a contract write exactly when the service is configured. |
| `BatchController.ReturnedTimestampsOrdered` | server/models/Batch.js:38-39 | Under a monotone clock the record `createBatch` returns has `updatedAt >= createdAt`. |
| `BatchController.RegisteredBatchIsNotTracked` | server/controllers/batchController.js:43-46 | As written: a valid registration with a fresh id answers 201 but writes nothing, and a lookup of that id answers 404. |
| `BatchController.CreateBatchPersisting` | server/controllers/batchController.js:43-52 | Corrected registration: a valid request on a readable file answers 201 'Batch created successfully' with exactly the record save-or-insert returned for the built batch. That record carries the request's data, it is in the written file, and the outside calls are the registration sequence followed by one file write. |
| `BatchController.PersistedBatchIsTracked` | server/controllers/batchController.js:43-76 | Corrected: after registration, looking the id up answers 200 with exactly the record registration returned. |
| `AiSimulation.GetCurrentSeason` | server/utils/aiSimulation.js:173-179 | Months 2–4 are spring, 5–7 summer and 8–10 autumn; every other month is winter. Each season's key is present in `seasonalFactors`. |
| `AiSimulation.SeasonsPartitionYear` | server/utils/aiSimulation.js:173-179 | Over 0..11 each season gets exactly three months: {2,3,4}, {5,6,7}, {8,9,10} and {0,1,11}. |
| `AiSimulation.PoolRepeatsHandling` | server/utils/aiSimulation.js:30-34 | The pooled factor list has 12 entries, and 'handling' appears twice (storage and transportation). |
| `AiSimulation.FactorCount` | server/utils/aiSimulation.js:193 | Two or three factors are drawn. |
| `AiSimulation.Dedup` | server/utils/aiSimulation.js:194-199 | Keeping first occurrences gives a duplicate-free list with exactly the input's elements, no longer than the input and non-empty for non-empty input. |
| `AiSimulation.GetCurrentRiskFactors` | server/utils/aiSimulation.js:184-202 | The result is the first-occurrence deduplication of the drawn entries. It has 1 to 3 distinct elements, all from the pool. |
| `AiSimulation.CropLabel` | server/utils/aiSimulation.js:85 | Gives the lowercased crop name, or 'agricultural products' when the name is missing or empty. The label is never empty and has no upper-case letter. It fails exactly for a number or boolean. |
| `AiSimulation.LowerIdempotent` | server/utils/aiSimulation.js:85 | Lowercasing twice equals lowercasing once. |
| `AiSimulation.RiskPercent` | server/utils/aiSimulation.js:108-109 | The spoilage percentage is between 5 and 40. |
| `AiSimulation.DemandPercentBounds` | server/utils/aiSimulation.js:86-87 | For a positive season factor, the demand percentage lies between the rounded factor-scaled ends of the 75–100 range. |
| `AiSimulation.GenerateDemandForecast` | server/utils/aiSimulation.js:83-100 | The text names the crop label and the percentage. It is the fixed fallback when the crop name cannot be lowercased. |
| `AiSimulation.GenerateRiskAnalysis` | server/utils/aiSimulation.js:105-122 | The text names a percentage between 5 and 40. |
| `AiSimulation.GenerateFraudDetection` | server/utils/aiSimulation.js:127-146 | The fixed 'No anomalies detected…' text comes exactly on a draw ≥ 0.20. Otherwise the text is one of the four anomaly texts. |
| `AiSimulation.GenerateLogisticsRecommendation` | server/utils/aiSimulation.js:151-168 | The recommendation names the crop label. It is the fixed fallback when the crop name cannot be lowercased. |
| `AiSimulation.GenerateAIReport` | server/utils/aiSimulation.js:42-78 | The report has exactly the four text fields. Fraud detection is all-clear exactly on a draw ≥ 0.20. Both crop texts name the label, or both fall back together. The risk text names a 5–40% figure. |

## Behaviour a reader may not expect

- Validation is truthiness only. A negative `quantity` passes, and so does a non-numeric string.
- `create` appends even when the id is already stored.
- `save` on an unknown id writes nothing and returns the instance as it was.
- `createBatch` does not persist the new batch (see Findings).
- The record keeps the anchor's transaction hash but not its `fallbackUsed` flag.
- The reference after a mined write is the chain's `tx.hash`. It is not proved non-empty; only the fallback references are.

## Findings

| source | as written | input that shows it | evidently intended | confidence | as-written member | corrected member |
|---|---|---|---|---|---|---|
| server/controllers/batchController.js:43-46 | The handler persists a new batch with `save()`. That call writes only when the `batchId` is already stored (server/models/Batch.js:79-85), so a fresh batch is never written. | Any valid body with a fresh uuid on a readable store, e.g. farmer 'A. Singh', crop 'Wheat', quantity 500, location 'Punjab', date '2024-03-01' on an empty store: 201, then `GET` of the returned id gives 404. | Store the new record (insert when absent), so that tracking finds it, as `BatchController.CreateBatchPersisting` does through `BatchModel.SaveOrInsert`. | high; not executed | `BatchController.RegisteredBatchIsNotTracked` | `BatchController.PersistedBatchIsTracked` |

## Left out

- HTTP and Express plumbing (routes, `server.js`), the client, and `aiService.js`: requests and responses are plain records here.
- The `getAIDashboard` handler: it only calls `generateAIReport` with fixed data.
- The outer `catch` of `generateAIReport`, and the dashboard's fallback object: no path in the model reaches them. Every generator catches its own errors, and the season lookup never misses.
- File I/O and JSON: the data file is abstract state, and `writeData` always succeeds. `mkdirSync` at load time is not modelled. JSON turns dates into ISO strings; `find` sees this through the `iso` parameter.
- Request values: fractional numbers, `NaN`, arrays and objects are not modelled. Numbers are safe integers (absolute value at most 2^53 - 1, the `SafeInt` type). Beyond that JavaScript prints the shortest spelling that reads back to the same double, padded with zeros (2^60 prints as 1152921504606847000), and the model does not follow that spelling.
- Chain calls always settle: `ChainWrite` and `ChainRead` are either an answer or an error. The source awaits the contract write and its mining with no timeout, so a configured registration that never hears back from the chain never answers. That case is not modelled.
- `Batch.create` with a raw `harvestDate`: `BatchData` takes an already converted Date, as `createBatch` supplies.
- `find` with keys inherited from `Object.prototype`: such keys read as undefined.
- `new ethers.Wallet` throwing on a malformed key at module load.
- Console logging.
- Concurrency: each store operation is atomic. Interleaved read-modify-write cycles are not modelled.
- Percentages are computed on exact reals. IEEE double rounding is not modelled.
- `toLowerCase` is modelled on ASCII letters only.
- `AiSimulation.GenerateDemandForecast`: states only that a non-lowercasable crop name gives the fallback, not the converse. The converse needs character-level comparison of long string constants, which the verifier does not unfold.
- `AiSimulation.GenerateLogisticsRecommendation`: the same one-directional statement, for the same reason.
- `AiSimulation.GenerateAIReport`: inherits the two one-directional fallback statements above.
- `BatchController.CreateBatch`: the hash-rejection path is not modelled. The preimage is always a string, so `GenerateBlockchainHash` cannot reject there.

=== FILE: ai_simulation.dfy ===
/**
  The insight simulator (server/utils/aiSimulation.js). Every `Math.random()`
  call is an explicit draw in [0, 1) and `new Date().getMonth()` is the
  `month` argument. Percentages are computed on exact reals, not doubles.
 */
module AiSimulation {
  import opened Outcomes
  import opened JsValues

  datatype Season = Spring | Summer | Autumn | Winter

  /** The property name each season is looked up under. */
  function SeasonKey(s: Season): string {
    match s
    case Spring => "spring"
    case Summer => "summer"
    case Autumn => "autumn"
    case Winter => "winter"
  }

  const SeasonalFactors: map<string, real> :=
    map["spring" := 1.15, "summer" := 1.30, "autumn" := 1.05, "winter" := 0.85]

  /** `getCurrentSeason()`: March–May spring, June–August summer,
      September–November autumn, every other month winter. The returned
      season's key is always present in `SeasonalFactors`. */
  function GetCurrentSeason(month: int): (s: Season)
    ensures SeasonKey(s) in SeasonalFactors
    ensures s == Spring <==> 2 <= month <= 4
    ensures s == Summer <==> 5 <= month <= 7
    ensures s == Autumn <==> 8 <= month <= 10
    ensures s == Winter <==> !(2 <= month <= 10)
  {
    if 2 <= month <= 4 then Spring
    else if 5 <= month <= 7 then Summer
    else if 8 <= month <= 10 then Autumn
    else Winter
  }

  /** Over the twelve months `getMonth()` returns, each season gets exactly three. */
  lemma SeasonsPartitionYear()
    ensures (set m | 0 <= m < 12 && GetCurrentSeason(m) == Spring) == {2, 3, 4}
    ensures (set m | 0 <= m < 12 && GetCurrentSeason(m) == Summer) == {5, 6, 7}
    ensures (set m | 0 <= m < 12 && GetCurrentSeason(m) == Autumn) == {8, 9, 10}
    ensures (set m | 0 <= m < 12 && GetCurrentSeason(m) == Winter) == {0, 1, 11}
  {
  }

  // ---------------------------------------------------------------------
  // Random draws

  /** A value `Math.random()` can return. */
  predicate IsDraw(r: real) {
    0.0 <= r < 1.0
  }

  /** `Math.floor(draw * n)`: a uniform index below `n`. */
  function Pick(draw: real, n: nat): (i: nat)
    requires IsDraw(draw) && n > 0
    ensures i < n
  {
    var x := draw * n as real;
    assert 0.0 <= x < n as real;
    x.Floor
  }

  // ---------------------------------------------------------------------
  // Risk factors

  const StorageFactors: seq<string> := ["temperature", "humidity", "pests", "handling"]
  const TransportationFactors: seq<string> := ["distance", "transit_time", "weather", "handling"]
  const MarketFactors: seq<string> := ["demand", "competition", "pricing", "seasonality"]

  /** `allFactors`: the three lists spread in order. */
  const RiskFactorPool: seq<string> := StorageFactors + TransportationFactors + MarketFactors

  /** The pool has twelve entries but only eleven names: 'handling' is listed
      under both storage and transportation. */
  lemma PoolRepeatsHandling()
    ensures |RiskFactorPool| == 12
    ensures RiskFactorPool[3] == RiskFactorPool[7] == "handling"
  {
  }

  /** `2 + Math.floor(Math.random() * 2)`. */
  function FactorCount(draw: real): (n: nat)
    requires IsDraw(draw)
    ensures 2 <= n <= 3
  {
    2 + Pick(draw, 2)
  }

  /** The pool entry a draw selects. */
  function PoolEntry(draw: real): (f: string)
    requires IsDraw(draw)
    ensures f in RiskFactorPool
  {
    RiskFactorPool[Pick(draw, |RiskFactorPool|)]
  }

  /** The entries a sequence of draws selects, in order. */
  function Picks(ds: seq<real>): (r: seq<string>)
    requires forall i :: 0 <= i < |ds| ==> IsDraw(ds[i])
    ensures |r| == |ds|
    ensures forall i :: 0 <= i < |r| ==> r[i] in RiskFactorPool
  {
    if |ds| == 0 then [] else Picks(ds[..|ds| - 1]) + [PoolEntry(ds[|ds| - 1])]
  }

  predicate NoDuplicates(s: seq<string>) {
    forall i, j :: 0 <= i < j < |s| ==> s[i] != s[j]
  }

  /** The first occurrence of each element of `s`, in order. */
  function Dedup(s: seq<string>): (r: seq<string>)
    ensures NoDuplicates(r)
    ensures forall x :: x in r <==> x in s
    ensures |r| <= |s|
    ensures |s| > 0 ==> |r| >= 1
  {
    if |s| == 0 then []
    else
      var d := Dedup(s[..|s| - 1]);
      assert forall x :: x in s <==> x in s[..|s| - 1] || x == s[|s| - 1];
      if s[|s| - 1] in d then d else d + [s[|s| - 1]]
  }

  /**
    `getCurrentRiskFactors()`: `draws[0]` decides whether two or three
    entries are drawn, the next draws pick them, and a name already chosen
    is skipped. The result is the first-occurrence deduplication of the
    picks: one to three distinct names from the pool.
   */
  method GetCurrentRiskFactors(draws: seq<real>) returns (factors: seq<string>)
    requires forall i :: 0 <= i < |draws| ==> IsDraw(draws[i])
    requires |draws| >= 1 && |draws| >= 1 + FactorCount(draws[0])
    ensures factors == Dedup(Picks(draws[1..1 + FactorCount(draws[0])]))
    ensures 1 <= |factors| <= 3
    ensures NoDuplicates(factors)
    ensures forall f :: f in factors ==> f in RiskFactorPool
  {
    var count := FactorCount(draws[0]);
    factors := [];
    var i := 0;
    while i < count
      invariant 0 <= i <= count
      invariant factors == Dedup(Picks(draws[1..1 + i]))
    {
      var f := PoolEntry(draws[1 + i]);
      ghost var next := draws[1..2 + i];
      assert next[..|next| - 1] == draws[1..1 + i];
      assert Picks(next) == Picks(draws[1..1 + i]) + [f];
      assert Picks(next)[..|Picks(next)| - 1] == Picks(draws[1..1 + i]);
      if f !in factors {
        factors := factors + [f];
      }
      i := i + 1;
    }
  }

  // ---------------------------------------------------------------------
  // Text generators

  const DefaultCropType := "agricultural products"

  predicate IsUpper(c: char) {
    'A' <= c <= 'Z'
  }

  function LowerChar(c: char): (d: char)
    ensures !IsUpper(d)
  {
    if IsUpper(c) then (c as int - 'A' as int + 'a' as int) as char else c
  }

  /** `toLowerCase()` on ASCII letters. */
  function Lower(s: string): (r: string)
    ensures |r| == |s|
    ensures forall i :: 0 <= i < |r| ==> r[i] == LowerChar(s[i])
  {
    if |s| == 0 then [] else [LowerChar(s[0])] + Lower(s[1..])
  }

  /** Lowercasing twice is lowercasing once. */
  lemma LowerIdempotent(s: string)
    ensures Lower(Lower(s)) == Lower(s)
  {
  }

  /** The `TypeError` `toLowerCase` throws on a non-string crop name. */
  datatype CropError = NotAString

  /**
    `batchData.cropName?.toLowerCase() || 'agricultural products'`: the
    lowercased name, or the default when the name is missing or empty; a
    number or boolean throws, because it has no `toLowerCase`.
   */
  function CropLabel(cropName: JsValue): (r: Result<string, CropError>)
    ensures r.Err? <==> cropName.Num? || cropName.Bool?
    ensures r.Ok? ==> r.value != "" && forall i :: 0 <= i < |r.value| ==> !IsUpper(r.value[i])
    ensures r.Ok? && cropName.Str? && cropName.s != "" ==> r.value == Lower(cropName.s)
    ensures r.Ok? && !(cropName.Str? && cropName.s != "") ==> r.value == DefaultCropType
  {
    match cropName
    case Undefined => Ok(DefaultCropType)
    case Null => Ok(DefaultCropType)
    case Str(s) => var l := Lower(s); if l == "" then Ok(DefaultCropType) else Ok(l)
    case Num(_) => Err(NotAString)
    case Bool(_) => Err(NotAString)
  }

  /** `Math.round` on the non-negative values it is applied to here. */
  function Round(x: real): int {
    (x + 0.5).Floor
  }

  /** The projected demand: base demand 75–100 scaled by the season factor. */
  function DemandPercent(baseDraw: real, factor: real): int
    requires IsDraw(baseDraw)
  {
    Round((75.0 + baseDraw * 25.0) * factor)
  }

  /** `Math.round(5 + Math.random() * 35)`. */
  function RiskPercent(draw: real): (p: int)
    requires IsDraw(draw)
    ensures 5 <= p <= 40
  {
    var x := 5.0 + draw * 35.0 + 0.5;
    assert 5.5 <= x < 40.5;
    Round(5.0 + draw * 35.0)
  }

  /** With a positive season factor the demand percentage stays between the
      rounded factor-scaled ends of the 75–100 base range. */
  lemma DemandPercentBounds(baseDraw: real, factor: real)
    requires IsDraw(baseDraw) && factor > 0.0
    ensures Round(75.0 * factor) <= DemandPercent(baseDraw, factor) <= Round(100.0 * factor)
  {
    var y := (75.0 + baseDraw * 25.0) * factor;
    assert 75.0 * factor <= y by {
      assert baseDraw * 25.0 >= 0.0;
    }
    assert y <= 100.0 * factor by {
      assert 75.0 + baseDraw * 25.0 <= 100.0;
    }
    FloorMonotone(75.0 * factor + 0.5, y + 0.5);
    FloorMonotone(y + 0.5, 100.0 * factor + 0.5);
  }

  lemma FloorMonotone(a: real, b: real)
    requires a <= b
    ensures a.Floor <= b.Floor
  {
  }

  /** `t` occurs in `s`. */
  predicate Mentions(s: string, t: string) {
    exists i :: 0 <= i <= |s| && t <= s[i..]
  }

  /** `head + t + tail` mentions `t`. */
  lemma MentionsMiddle(head: string, t: string, tail: string)
    ensures Mentions(head + t + tail, t)
  {
    var s := head + t + tail;
    assert s[|head|..] == t + tail;
  }

  const DemandFallback := "Market demand analysis indicates stable consumption patterns with moderate growth expected in the short term."
  const LogisticsFallback := "Maintain standard logistics protocols. Consider optimizing distribution routes for improved efficiency and cost reduction."

  /** `head` `first` `mid` `second` `rest`: a text with two interpolated parts. */
  function Fill(head: string, first: string, mid: string, second: string, rest: string): (r: string)
    ensures Mentions(r, first) && Mentions(r, second)
  {
    var r := head + first + mid + second + rest;
    assert r == head + first + (mid + second + rest);
    MentionsMiddle(head, first, mid + second + rest);
    MentionsMiddle(head + first + mid, second, rest);
    r
  }

  /** The fixed pieces of the four demand trend texts. The third names the
      percentage before the crop, the others the crop first. */
  function TrendHead(which: nat): string {
    if which == 0 then "Market demand for "
    else if which == 1 then "Consumer preference for "
    else if which == 2 then "Supply chain analysis indicates "
    else "Export markets demonstrate growing appetite for "
  }

  function TrendMid(which: nat): string {
    if which == 0 then " shows positive momentum with "
    else if which == 1 then " continues to rise, with expected demand increase of "
    else if which == 2 then " higher demand for "
    else ", forecasting "
  }

  function TrendRest(which: nat): string {
    if which == 0 then " growth projected over the next 7 days, driven by seasonal consumption patterns and export opportunities."
    else if which == 1 then " over the coming week. Local markets showing particularly strong interest."
    else if which == 2 then " in the upcoming period, supported by favorable weather conditions and increased retail orders."
    else " demand growth. Domestic consumption also trending upward this season."
  }

  /** The demand trend text `which`; each names the crop and the percentage. */
  function DemandTrend(which: nat, crop: string, percent: string): (r: string)
    requires which < 4
    ensures Mentions(r, crop) && Mentions(r, percent + "%")
  {
    var first := if which == 2 then percent + "%" else crop;
    var second := if which == 2 then crop else percent + "%";
    Fill(TrendHead(which), first, TrendMid(which), second, TrendRest(which))
  }

  /** `generateDemandForecast(batchData, seasonFactor)`: a trend text naming
      the crop label and the projected percentage, or the fixed fallback when
      the crop name cannot be lowercased. */
  function GenerateDemandForecast(cropName: JsValue, factor: real, baseDraw: real, pickDraw: real): (r: string)
    requires IsDraw(baseDraw) && IsDraw(pickDraw)
    ensures CropLabel(cropName).Err? ==> r == DemandFallback
    ensures CropLabel(cropName).Ok? ==>
              Mentions(r, CropLabel(cropName).value) && Mentions(r, IntToDecimal(DemandPercent(baseDraw, factor)) + "%")
  {
    match CropLabel(cropName)
    case Err(_) => DemandFallback
    case Ok(crop) => DemandTrend(Pick(pickDraw, 4), crop, IntToDecimal(DemandPercent(baseDraw, factor)))
  }

  /** The four risk texts; each names the percentage. */
  function RiskText(which: nat, percent: string): (r: string)
    requires which < 4
    ensures Mentions(r, percent + "%")
  {
    var head :=
      if which == 0 then "Low risk assessment ("
      else if which == 1 then "Moderate risk level detected ("
      else if which == 2 then "Elevated risk factors identified ("
      else "Risk analysis indicates ";
    var tail :=
      if which == 0 then
        " spoilage probability) for current batch. Standard storage protocols should maintain product quality throughout the supply chain."
      else if which == 1 then
        " probability). Temperature and humidity monitoring recommended during transportation and storage phases."
      else if which == 2 then
        " spoilage likelihood). Enhanced quality control measures advised for optimal preservation."
      else
        " probability of quality degradation. Proactive monitoring and proper handling protocols essential for maintaining standards.";
    MentionsMiddle(head, percent + "%", tail);
    head + (percent + "%") + tail
  }

  /** `generateRiskAnalysis(batchData)`: one of four texts naming a 5–40% figure. */
  function GenerateRiskAnalysis(riskDraw: real, pickDraw: real): (r: string)
    requires IsDraw(riskDraw) && IsDraw(pickDraw)
    ensures exists p :: 5 <= p <= 40 && Mentions(r, IntToDecimal(p) + "%")
  {
    var p := RiskPercent(riskDraw);
    assert 5 <= p <= 40;
    RiskText(Pick(pickDraw, 4), IntToDecimal(p))
  }

  const NoAnomalies := "No anomalies detected in supply chain verification. All standard checks passed successfully."

  const Anomalies: seq<string> := [
    "Minor discrepancy detected in shipping documentation. Verification recommended for compliance purposes.",
    "Potential irregularity in quality certification process. Additional review suggested.",
    "Alert: Unexpected temperature variance recorded during transit. Investigation warranted.",
    "Supply chain verification flagged minor inconsistency. Standard protocol review initiated."
  ]

  /**
    `generateFraudDetection()`: a draw below 0.20 reports one of the four
    anomalies, chosen by a second draw; otherwise the fixed all-clear text.
   */
  function GenerateFraudDetection(anomalyDraw: real, pickDraw: real): (r: string)
    requires IsDraw(anomalyDraw) && IsDraw(pickDraw)
    ensures anomalyDraw < 0.20 ==> r in Anomalies
    ensures r == NoAnomalies <==> anomalyDraw >= 0.20
  {
    if anomalyDraw < 0.20 then
      var k := Pick(pickDraw, |Anomalies|);
      assert NoAnomalies != Anomalies[0] && NoAnomalies != Anomalies[1];
      assert NoAnomalies != Anomalies[2] && NoAnomalies != Anomalies[3];
      Anomalies[k]
    else NoAnomalies
  }

  /** The six recommendation texts; each names the crop. */
  function Recommendation(which: nat, crop: string): (r: string)
    requires which < 6
    ensures Mentions(r, crop)
  {
    var head :=
      if which == 0 then "Optimize transportation routes to reduce delivery time by 10-15% for "
      else if which == 1 then "Implement enhanced monitoring protocols for "
      else if which == 2 then
        "Schedule preventive maintenance for harvesting and storage equipment to ensure optimal performance during peak season. This will help maintain "
      else if which == 3 then
        "Establish direct partnerships with key retailers to reduce middleman costs and improve profit margins by approximately 8-12% for "
      else if which == 4 then "Invest in sustainable packaging solutions for "
      else "Diversify distribution channels for ";
    var tail :=
      if which == 0 then
        ". Consider partnering with local distributors to improve last-mile efficiency and maintain freshness standards."
      else if which == 1 then
        " shipments. IoT sensors recommended for real-time tracking of temperature, humidity, and location throughout the supply chain."
      else if which == 2 then " quality and reduce operational risks."
      else if which == 3 then " distribution."
      else if which == 4 then
        " to meet growing consumer demand for environmentally conscious products and access premium market segments."
      else
        " to include online platforms and direct-to-consumer models. This reduces dependency on traditional supply chains and opens new revenue streams.";
    MentionsMiddle(head, crop, tail);
    head + crop + tail
  }

  /** `generateLogisticsRecommendation(batchData, riskAnalysis)`: a recommendation
      naming the crop label, or the fixed fallback when the crop name cannot
      be lowercased. The risk text it is passed is not used. */
  function GenerateLogisticsRecommendation(cropName: JsValue, pickDraw: real): (r: string)
    requires IsDraw(pickDraw)
    ensures CropLabel(cropName).Err? ==> r == LogisticsFallback
    ensures CropLabel(cropName).Ok? ==> Mentions(r, CropLabel(cropName).value)
  {
    match CropLabel(cropName)
    case Err(_) => LogisticsFallback
    case Ok(crop) => Recommendation(Pick(pickDraw, 6), crop)
  }

  /** The `Math.random()` draws one report consumes, by the text that consumes them. */
  datatype ReportDraws = ReportDraws(
    demandBase: real, demandPick: real,
    riskBase: real, riskPick: real,
    anomaly: real, anomalyPick: real,
    logisticsPick: real)

  predicate ValidDraws(d: ReportDraws) {
    IsDraw(d.demandBase) && IsDraw(d.demandPick) && IsDraw(d.riskBase) && IsDraw(d.riskPick)
    && IsDraw(d.anomaly) && IsDraw(d.anomalyPick) && IsDraw(d.logisticsPick)
  }

  /** The report: exactly these four text fields. */
  datatype AIReport = AIReport(
    demandForecast: string,
    riskAnalysis: string,
    fraudDetection: string,
    logisticsRecommendation: string)

  /**
    `generateAIReport(batchData)`: the season factor for `month`, then the
    four texts in order. A crop name without `toLowerCase` degrades the two
    crop-specific texts to their fixed fallbacks and nothing else.
   */
  function GenerateAIReport(cropName: JsValue, month: int, draws: ReportDraws): (r: AIReport)
    requires ValidDraws(draws)
    ensures r.fraudDetection == NoAnomalies || r.fraudDetection in Anomalies
    ensures r.fraudDetection == NoAnomalies <==> draws.anomaly >= 0.20
    ensures CropLabel(cropName).Err? ==> r.demandForecast == DemandFallback && r.logisticsRecommendation == LogisticsFallback
    ensures CropLabel(cropName).Ok? ==>
              Mentions(r.demandForecast, CropLabel(cropName).value)
              && Mentions(r.logisticsRecommendation, CropLabel(cropName).value)
    ensures exists p :: 5 <= p <= 40 && Mentions(r.riskAnalysis, IntToDecimal(p) + "%")
  {
    var season := GetCurrentSeason(month);
    var factor := SeasonalFactors[SeasonKey(season)];
    AIReport(
      GenerateDemandForecast(cropName, factor, draws.demandBase, draws.demandPick),
      GenerateRiskAnalysis(draws.riskBase, draws.riskPick),
      GenerateFraudDetection(draws.anomaly, draws.anomalyPick),
      GenerateLogisticsRecommendation(cropName, draws.logisticsPick))
  }
}

=== FILE: batch_controller.dfy ===
/**
  The registration and lookup handlers (server/controllers/batchController.js).
  Requests and responses are plain records; what a handler hands to Express's
  `next` is `PassToNext`. Every value the handler draws from outside (the
  uuid, the hash functions, clock readings, the chain's answer) is a field of
  `Context`, and `effects` lists the outside calls in the order they happen.
 */
module BatchController {
  import opened Outcomes
  import opened JsValues
  import opened Hex
  import opened BlockchainSimulator
  import opened BlockchainService
  import opened BatchModel

  /** The five fields of `req.body` the handler reads. */
  datatype RequestBody = RequestBody(
    farmerName: JsValue,
    cropName: JsValue,
    quantity: JsValue,
    location: JsValue,
    harvestDate: JsValue)

  /** The outside world as seen by one `createBatch` call. */
  datatype Context = Context(
    uuid: string,                    // uuidv4()
    sha256: string -> Digest,        // SHA-256 over the UTF-8 bytes
    parseDate: JsValue -> Date,      // new Date(harvestDate)
    anchorClock: int,                // Date.now() inside the anchor's fallback
    keccak256: string -> Digest,     // ethers.keccak256(toUtf8Bytes(...))
    chain: ChainWrite,               // storeBatch + tx.wait(), when configured
    createdClock: int,               // the constructor's first new Date()
    updatedClock: int,               // the constructor's second new Date()
    saveClock: int)                  // save()'s new Date(), used only when it writes

  datatype ResponseBody = ResponseBody(success: bool, message: Option<string>, data: Option<BatchRecord>)

  /** A JSON response with a status, or an error passed to `next(error)` with nothing written. */
  datatype Reply = Respond(status: int, body: ResponseBody) | PassToNext(error: StoreError)

  /** Calls to the outside world, in order. */
  datatype Effect = DrawUuid | HashData(preimage: string) | ContractWrite(batchId: string, hash: string) | ReadFile | WriteFile

  datatype Handled = Handled(reply: Reply, file: DataFile, effects: seq<Effect>)

  const FieldsRequired := "All fields are required"
  const BatchCreated := "Batch created successfully"
  const BatchNotFound := "Batch not found"

  function BadRequest(): Reply {
    Respond(400, ResponseBody(false, Some(FieldsRequired), None))
  }

  function NotFound(): Reply {
    Respond(404, ResponseBody(false, Some(BatchNotFound), None))
  }

  /** The required-field check: truthiness of each of the five fields. */
  predicate AllFieldsPresent(body: RequestBody) {
    Truthy(body.farmerName) && Truthy(body.cropName) && Truthy(body.quantity)
    && Truthy(body.location) && Truthy(body.harvestDate)
  }

  /** The text the five fields contribute, each in its template-literal form. */
  function FieldsText(body: RequestBody): string {
    ToStr(body.farmerName) + ToStr(body.cropName) + ToStr(body.quantity)
    + ToStr(body.location) + ToStr(body.harvestDate)
  }

  /** `${farmerName}${cropName}${quantity}${location}${harvestDate}${batchId}`:
      no separators, the id last. */
  function HashPreimage(body: RequestBody, batchId: string): (p: string)
    ensures |p| == |FieldsText(body)| + |batchId|
    ensures p[..|FieldsText(body)|] == FieldsText(body) && p[|FieldsText(body)|..] == batchId
    ensures |p| >= |ToStr(body.farmerName)| && p[..|ToStr(body.farmerName)|] == ToStr(body.farmerName)
    ensures AllFieldsPresent(body) ==> |p| >= 5 + |batchId|
  {
    FieldsText(body) + batchId
  }

  /** The fingerprint of a request under a given id. Hashing a template literal
      always has a string argument, so it never rejects here. */
  function Fingerprint(body: RequestBody, batchId: string, sha256: string -> Digest): (r: string)
    ensures |r| == 64 && IsLowerHex(r)
    ensures Decode(r) == Some(sha256(HashPreimage(body, batchId)))
    ensures GenerateBlockchainHash(Str(HashPreimage(body, batchId)), sha256) == Ok(r)
  {
    GenerateBlockchainHash(Str(HashPreimage(body, batchId)), sha256).value
  }

  /** The anchor call `createBatch` makes with the fresh id and fingerprint. */
  function Anchor(body: RequestBody, svc: Service, ctx: Context): AnchorResult {
    StoreBatchOnChain(svc, ctx.uuid, Fingerprint(body, ctx.uuid, ctx.sha256), ctx.anchorClock, ctx.keccak256, ctx.chain)
  }

  /**
    The `Batch` instance `createBatch` constructs: the request fields, the
    harvest date converted to a Date, the fresh id, the fingerprint over the
    RAW harvest date, and the anchor's transaction hash; the anchor's
    `fallbackUsed` flag is not kept.
   */
  function BuildBatch(body: RequestBody, svc: Service, ctx: Context): (b: BatchRecord)
    ensures b.farmerName == body.farmerName && b.cropName == body.cropName
    ensures b.quantity == body.quantity && b.location == body.location
    ensures b.harvestDate == ctx.parseDate(body.harvestDate)
    ensures b.batchId == Str(ctx.uuid)
    ensures b.blockchainHash.Str? && Decode(b.blockchainHash.s) == Some(ctx.sha256(HashPreimage(body, ctx.uuid)))
    ensures b.transportStatus == Str(InTransit)
    ensures Anchor(body, svc, ctx).transactionHash != "" ==> b.transactionHash == Str(Anchor(body, svc, ctx).transactionHash)
    ensures Anchor(body, svc, ctx).transactionHash == "" ==> b.transactionHash == Null
    ensures b.createdAt == ctx.createdClock && b.updatedAt == ctx.updatedClock
  {
    var hash := Fingerprint(body, ctx.uuid, ctx.sha256);
    var anchor := Anchor(body, svc, ctx);
    var data := BatchData(body.farmerName, body.cropName, body.quantity, body.location,
                          ctx.parseDate(body.harvestDate), Str(ctx.uuid), Str(hash),
                          Str(anchor.transactionHash), Undefined);
    NewBatch(data, ctx.createdClock, ctx.updatedClock)
  }

  /** The calls a valid registration makes before it writes: id, hash, the
      contract write when configured, then reading the file. */
  function RegistrationEffects(body: RequestBody, svc: Service, ctx: Context): (e: seq<Effect>)
    ensures |e| >= 3 && e[0] == DrawUuid && e[1] == HashData(HashPreimage(body, ctx.uuid)) && e[|e| - 1] == ReadFile
    ensures WriteFile !in e
    ensures (exists k :: 0 <= k < |e| && e[k].ContractWrite?) <==> IsConfigured(svc)
  {
    var hash := Fingerprint(body, ctx.uuid, ctx.sha256);
    var e := [DrawUuid, HashData(HashPreimage(body, ctx.uuid))]
             + (if IsConfigured(svc) then [ContractWrite(ctx.uuid, hash)] else [])
             + [ReadFile];
    assert IsConfigured(svc) ==> e[2].ContractWrite?;
    e
  }

  /**
    `createBatch`: validate, draw an id, hash, anchor, construct, `save()`,
    reply 201 with what `save()` returned. Because `save()` only writes when
    the id is already stored, a fresh batch is NOT persisted.
   */
  function CreateBatch(body: RequestBody, svc: Service, file: DataFile, ctx: Context): (h: Handled)
    ensures !AllFieldsPresent(body) <==> h.reply == BadRequest()
    ensures !AllFieldsPresent(body) ==> h.effects == [] && h.file == file
    ensures AllFieldsPresent(body) ==> |h.effects| >= 3 && h.effects[0] == DrawUuid
    ensures AllFieldsPresent(body) ==>
              var e := RegistrationEffects(body, svc, ctx);
              |h.effects| >= |e| && h.effects[..|e|] == e && |h.effects| <= |e| + 1
    ensures AllFieldsPresent(body) ==> (h.reply.PassToNext? <==> file.Corrupt?)
    ensures h.reply.PassToNext? ==> h.file == file && WriteFile !in h.effects
    ensures h.reply.Respond? ==> h.reply.status == 400 || h.reply.status == 201
    ensures h.reply.Respond? && h.reply.status == 201 ==>
              && h.reply.body.success
              && h.reply.body.message == Some(BatchCreated)
              && h.reply.body.data.Some?
              && h.reply.body.data.value.batchId == Str(ctx.uuid)
              && DataOf(h.reply.body.data.value) == DataOf(BuildBatch(body, svc, ctx))
    ensures AllFieldsPresent(body) && !file.Corrupt? ==>
              var w := Save(file, BuildBatch(body, svc, ctx), ctx.saveClock).value;
              && h.reply == Respond(201, ResponseBody(true, Some(BatchCreated), Some(w.batch)))
              && h.file == w.file
              && (WriteFile in h.effects <==> w.wrote)
              && h.effects == RegistrationEffects(body, svc, ctx) + (if w.wrote then [WriteFile] else [])
  {
    if !AllFieldsPresent(body) then Handled(BadRequest(), file, [])
    else
      var batch := BuildBatch(body, svc, ctx);
      var before := RegistrationEffects(body, svc, ctx);
      match Save(file, batch, ctx.saveClock)
      case Err(e) => Handled(PassToNext(e), file, before)
      case Ok(w) =>
        Handled(Respond(201, ResponseBody(true, Some(BatchCreated), Some(w.batch))),
                w.file, before + (if w.wrote then [WriteFile] else []))
  }

  /** The registration the rest of the system expects: as `CreateBatch`, but
      persisting through `SaveOrInsert`, so that a fresh batch is stored. */
  function CreateBatchPersisting(body: RequestBody, svc: Service, file: DataFile, ctx: Context): (h: Handled)
    ensures !AllFieldsPresent(body) <==> h.reply == BadRequest()
    ensures !AllFieldsPresent(body) ==> h.effects == [] && h.file == file
    ensures AllFieldsPresent(body) ==> (h.reply.PassToNext? <==> file.Corrupt?)
    ensures h.reply.PassToNext? ==> h.file == file
    ensures AllFieldsPresent(body) && !file.Corrupt? ==>
              h.reply.Respond? && h.reply.status == 201 && h.reply.body.data.Some?
              && h.file.Stored? && h.reply.body.data.value in h.file.batches
              && |h.effects| > 0 && h.effects[|h.effects| - 1] == WriteFile
    ensures AllFieldsPresent(body) && !file.Corrupt? ==>
              var w := SaveOrInsert(file, BuildBatch(body, svc, ctx), ctx.saveClock).value;
              && h.reply == Respond(201, ResponseBody(true, Some(BatchCreated), Some(w.batch)))
              && h.file == w.file
              && DataOf(w.batch) == DataOf(BuildBatch(body, svc, ctx))
              && h.effects == RegistrationEffects(body, svc, ctx) + [WriteFile]
  {
    if !AllFieldsPresent(body) then Handled(BadRequest(), file, [])
    else
      var batch := BuildBatch(body, svc, ctx);
      var before := RegistrationEffects(body, svc, ctx);
      match SaveOrInsert(file, batch, ctx.saveClock)
      case Err(e) => Handled(PassToNext(e), file, before)
      case Ok(w) =>
        Handled(Respond(201, ResponseBody(true, Some(BatchCreated), Some(w.batch))), w.file, before + [WriteFile])
  }

  /**
    `getBatchById`: 404 'Batch not found' exactly when `findOne` yields null,
    200 with the found record otherwise; a file error goes to `next`. The
    file is never written.
   */
  function GetBatchById(id: string, file: DataFile): (h: Handled)
    ensures h.file == file && h.effects == [ReadFile]
    ensures h.reply.PassToNext? <==> file.Corrupt?
    ensures h.reply == NotFound() <==> !file.Corrupt? && (id == "" || !HasId(ReadData(file).value, Str(id)))
    ensures h.reply.Respond? && h.reply != NotFound() ==> h.reply.status == 200
    ensures h.reply.Respond? && h.reply.status == 200 ==>
              var bs := ReadData(file).value;
              && h.reply.body.success
              && h.reply.body.message == None
              && h.reply.body.data.Some?
              && h.reply.body.data.value.batchId == Str(id)
              && h.reply.body.data.value == bs[FirstIndex(bs, Str(id)).value]
  {
    match FindOne(file, Str(id))
    case Err(e) => Handled(PassToNext(e), file, [ReadFile])
    case Ok(None) => Handled(NotFound(), file, [ReadFile])
    case Ok(Some(b)) => Handled(Respond(200, ResponseBody(true, None, Some(b))), file, [ReadFile])
  }

  // ---------------------------------------------------------------------
  // Properties of registration

  /** With the other four fields present, the request is rejected exactly when
      `quantity` is falsy; in particular a negative quantity is accepted. */
  lemma QuantityCheckIsTruthiness(body: RequestBody, svc: Service, file: DataFile, ctx: Context)
    requires Truthy(body.farmerName) && Truthy(body.cropName) && Truthy(body.location) && Truthy(body.harvestDate)
    ensures CreateBatch(body, svc, file, ctx).reply == BadRequest() <==> !Truthy(body.quantity)
    ensures body.quantity.Num? && body.quantity.n < 0 ==> CreateBatch(body, svc, file, ctx).reply != BadRequest()
  {
  }

  /** The preimage has no separators, so different requests can share it and
      therefore share a fingerprint: here the split between farmer and crop
      name moves, and a numeric quantity is replaced by its digits. */
  lemma {:induction false} PreimageNotInjective(sha256: string -> Digest, batchId: string)
    ensures var a := RequestBody(Str("ab"), Str("c"), Num(500), Str("Punjab"), Str("2024-03-01"));
            var b := RequestBody(Str("a"), Str("bc"), Str("500"), Str("Punjab"), Str("2024-03-01"));
            a != b && Fingerprint(a, batchId, sha256) == Fingerprint(b, batchId, sha256)
  {
    var a := RequestBody(Str("ab"), Str("c"), Num(500), Str("Punjab"), Str("2024-03-01"));
    var b := RequestBody(Str("a"), Str("bc"), Str("500"), Str("Punjab"), Str("2024-03-01"));
    assert NatToDecimal(500) == "500" by {
      assert NatToDecimal(5) == "5";
      assert NatToDecimal(50) == NatToDecimal(5) + "0";
    }
    assert ToStr(a.quantity) == ToStr(b.quantity);
    assert ToStr(a.farmerName) + ToStr(a.cropName) == ToStr(b.farmerName) + ToStr(b.cropName);
    assert HashPreimage(a, batchId) == HashPreimage(b, batchId);
  }

  /** The stored fingerprint can be recomputed from the request's raw fields and
      the returned id; the record's converted `harvestDate` is not what was hashed. */
  lemma FingerprintRecomputable(body: RequestBody, svc: Service, file: DataFile, ctx: Context)
    requires CreateBatch(body, svc, file, ctx).reply.Respond?
    requires CreateBatch(body, svc, file, ctx).reply.status == 201
    ensures var rec := CreateBatch(body, svc, file, ctx).reply.body.data.value;
            rec.batchId.Str? && rec.blockchainHash.Str?
            && GenerateBlockchainHash(Str(HashPreimage(body, rec.batchId.s)), ctx.sha256) == Ok(rec.blockchainHash.s)
  {
  }

  /** Registering the same request under two different ids of one length (as
      uuids are) hashes two different preimages: the id is the preimage's tail. */
  lemma FreshIdSeparatesPreimages(body: RequestBody, id1: string, id2: string)
    requires |id1| == |id2| && id1 != id2
    ensures HashPreimage(body, id1) != HashPreimage(body, id2)
  {
  }

  /** When anchoring falls back (unconfigured, or the write failed) the record
      still carries a 66-character `0x` reference: a failed chain write does not
      fail registration. Registration does await the anchor, and with it the
      mining of a configured write; the model takes every chain call to settle. */
  lemma FallbackStillRegisters(body: RequestBody, svc: Service, file: DataFile, ctx: Context)
    requires AllFieldsPresent(body) && !file.Corrupt?
    requires !IsConfigured(svc) || ctx.chain.WriteFailed?
    ensures var h := CreateBatch(body, svc, file, ctx);
            && h.reply.Respond? && h.reply.status == 201
            && Anchor(body, svc, ctx).fallbackUsed
            && var tx := h.reply.body.data.value.transactionHash;
               tx.Str? && |tx.s| == 66 && tx.s[..2] == "0x" && IsLowerHex(tx.s[2..])
  {
  }

  /** The contract is written to exactly when the service is configured. */
  lemma ContractCalledOnlyWhenConfigured(body: RequestBody, svc: Service, file: DataFile, ctx: Context)
    requires AllFieldsPresent(body)
    ensures var e := CreateBatch(body, svc, file, ctx).effects;
            (exists k :: 0 <= k < |e| && e[k].ContractWrite?) <==> IsConfigured(svc)
  {
  }

  /** Under a monotone clock the returned record has `updatedAt >= createdAt`. */
  lemma ReturnedTimestampsOrdered(body: RequestBody, svc: Service, file: DataFile, ctx: Context)
    requires ctx.createdClock <= ctx.updatedClock <= ctx.saveClock
    requires CreateBatch(body, svc, file, ctx).reply.Respond?
    requires CreateBatch(body, svc, file, ctx).reply.status == 201
    ensures TimestampsOrdered(CreateBatch(body, svc, file, ctx).reply.body.data.value)
  {
  }

  /** As written: registering with a fresh id answers 201 but leaves the file
      as it was, so looking the new id up answers 404. */
  lemma RegisteredBatchIsNotTracked(body: RequestBody, svc: Service, file: DataFile, ctx: Context)
    requires AllFieldsPresent(body) && !file.Corrupt?
    requires !HasId(ReadData(file).value, Str(ctx.uuid))
    ensures var h := CreateBatch(body, svc, file, ctx);
            && h.reply.Respond? && h.reply.status == 201
            && h.file == file
            && WriteFile !in h.effects
            && GetBatchById(ctx.uuid, h.file).reply == NotFound()
  {
  }

  /** Corrected: after a persisting registration, looking its id up answers 200
      with exactly the record the registration returned. */
  lemma PersistedBatchIsTracked(body: RequestBody, svc: Service, file: DataFile, ctx: Context)
    requires AllFieldsPresent(body) && !file.Corrupt?
    requires ctx.uuid != ""
    ensures var h := CreateBatchPersisting(body, svc, file, ctx);
            && h.reply.Respond? && h.reply.status == 201
            && GetBatchById(ctx.uuid, h.file).reply == Respond(200, ResponseBody(true, None, h.reply.body.data))
  {
  }
}

=== FILE: batch_model.dfy ===
/**
  The batch record and the file-backed record store (server/models/Batch.js).
  The JSON file is abstract state: absent, a stored array of records, or
  content `JSON.parse` rejects. Every operation reads the whole file first
  and, when it writes, replaces the whole file.
 */
module BatchModel {
  import opened Outcomes
  import opened JsValues

  /** A JavaScript `Date`: a millisecond time value, or `Invalid Date`. */
  datatype Date = ValidDate(ms: int) | InvalidDate

  /** The object handed to `new Batch(data)`. */
  datatype BatchData = BatchData(
    farmerName: JsValue,
    cropName: JsValue,
    quantity: JsValue,
    location: JsValue,
    harvestDate: Date,
    batchId: JsValue,
    blockchainHash: JsValue,
    transactionHash: JsValue,
    transportStatus: JsValue)

  /** A `Batch` instance; `createdAt` and `updatedAt` are clock readings in milliseconds. */
  datatype BatchRecord = BatchRecord(
    farmerName: JsValue,
    cropName: JsValue,
    quantity: JsValue,
    location: JsValue,
    harvestDate: Date,
    batchId: JsValue,
    blockchainHash: JsValue,
    transactionHash: JsValue,
    transportStatus: JsValue,
    createdAt: int,
    updatedAt: int)

  const InTransit := "In Transit"

  predicate TimestampsOrdered(b: BatchRecord) {
    b.createdAt <= b.updatedAt
  }

  /**
    `new Batch(data)`: copies the fields, defaults a falsy transaction hash
    to null and a falsy transport status to 'In Transit', and stamps
    `createdAt` and `updatedAt` from two successive clock readings.
   */
  function NewBatch(data: BatchData, createdClock: int, updatedClock: int): (b: BatchRecord)
    ensures b.farmerName == data.farmerName && b.cropName == data.cropName
    ensures b.quantity == data.quantity && b.location == data.location
    ensures b.harvestDate == data.harvestDate && b.batchId == data.batchId
    ensures b.blockchainHash == data.blockchainHash
    ensures Truthy(b.transportStatus)
    ensures b.transportStatus == (if Truthy(data.transportStatus) then data.transportStatus else Str(InTransit))
    ensures b.transactionHash == Null || (Truthy(b.transactionHash) && b.transactionHash == data.transactionHash)
    ensures b.transactionHash == Null <==> !Truthy(data.transactionHash)
    ensures b.createdAt == createdClock && b.updatedAt == updatedClock
    ensures createdClock <= updatedClock ==> TimestampsOrdered(b)
  {
    BatchRecord(
      data.farmerName, data.cropName, data.quantity, data.location, data.harvestDate,
      data.batchId, data.blockchainHash,
      if Truthy(data.transactionHash) then data.transactionHash else Null,
      if Truthy(data.transportStatus) then data.transportStatus else Str(InTransit),
      createdClock, updatedClock)
  }

  /** The constructor's input fields of an existing record (what `new Batch(batch)` would read). */
  function DataOf(b: BatchRecord): BatchData {
    BatchData(b.farmerName, b.cropName, b.quantity, b.location, b.harvestDate,
              b.batchId, b.blockchainHash, b.transactionHash, b.transportStatus)
  }

  /** The constructor's defaults are idempotent: rebuilding a constructed
      record changes nothing but its timestamps. */
  lemma ReconstructKeepsFields(data: BatchData, t0: int, t1: int, t2: int, t3: int)
    ensures var b := NewBatch(data, t0, t1);
            NewBatch(DataOf(b), t2, t3) == b.(createdAt := t2, updatedAt := t3)
  {
  }

  // ---------------------------------------------------------------------
  // The data file

  /** The data file: missing, a readable JSON array of records, or unparsable. */
  datatype DataFile = Absent | Stored(batches: seq<BatchRecord>) | Corrupt

  /** What `JSON.parse` throws on a corrupt file. */
  datatype StoreError = JsonSyntaxError

  /** The outcome of a store operation that may write: the file afterwards,
      the instance it returns, and whether `writeData` was called. */
  datatype Written = Written(file: DataFile, batch: BatchRecord, wrote: bool)

  /** `readData()`: a missing file reads as the empty collection. */
  function ReadData(file: DataFile): (r: Result<seq<BatchRecord>, StoreError>)
    ensures r.Err? <==> file.Corrupt?
    ensures file.Absent? ==> r == Ok([])
    ensures file.Stored? ==> r == Ok(file.batches)
  {
    match file
    case Absent => Ok([])
    case Stored(bs) => Ok(bs)
    case Corrupt => Err(JsonSyntaxError)
  }

  predicate HasId(bs: seq<BatchRecord>, id: JsValue) {
    exists i :: 0 <= i < |bs| && bs[i].batchId == id
  }

  /** No two stored records share a `batchId`. */
  predicate UniqueIds(bs: seq<BatchRecord>) {
    forall i, j :: 0 <= i < j < |bs| ==> bs[i].batchId != bs[j].batchId
  }

  predicate AllTimestampsOrdered(bs: seq<BatchRecord>) {
    forall i :: 0 <= i < |bs| ==> TimestampsOrdered(bs[i])
  }

  /** `batches.findIndex(b => b.batchId === id)`, with -1 as `None`: the
      first position holding `id`, or none when no record holds it. */
  function FirstIndex(bs: seq<BatchRecord>, id: JsValue): (r: Option<nat>)
    ensures r.Some? ==> r.value < |bs| && bs[r.value].batchId == id
    ensures r.Some? ==> forall j :: 0 <= j < r.value ==> bs[j].batchId != id
    ensures r.None? <==> !HasId(bs, id)
  {
    if |bs| == 0 then None
    else if bs[0].batchId == id then Some(0)
    else
      match FirstIndex(bs[1..], id)
      case None =>
        assert forall j :: 1 <= j < |bs| ==> bs[j] == bs[1..][j - 1];
        None
      case Some(i) => Some(i + 1)
  }

  // ---------------------------------------------------------------------
  // Store operations

  /**
    `Batch.create(data)`: constructs the instance, then reads, appends it
    at the end and rewrites the file. There is no duplicate check.
   */
  function Create(file: DataFile, data: BatchData, createdClock: int, updatedClock: int): (r: Result<Written, StoreError>)
    ensures r.Err? <==> file.Corrupt?
    ensures r.Ok? ==> r.value.batch == NewBatch(data, createdClock, updatedClock)
    ensures r.Ok? ==> r.value.wrote && r.value.file.Stored?
    ensures r.Ok? ==>
              var before := ReadData(file).value;
              var after := r.value.file.batches;
              |after| == |before| + 1 && after[..|before|] == before && after[|before|] == r.value.batch
  {
    var batch := NewBatch(data, createdClock, updatedClock);
    match ReadData(file)
    case Err(e) => Err(e)
    case Ok(bs) => Ok(Written(Stored(bs + [batch]), batch, true))
  }

  /**
    `Batch.findOne({batchId: id})`: the first record holding `id`; null when
    none does or when `id` is falsy.
   */
  function FindOne(file: DataFile, id: JsValue): (r: Result<Option<BatchRecord>, StoreError>)
    ensures r.Err? <==> file.Corrupt?
    ensures r.Ok? ==> (r.value.None? <==> !Truthy(id) || !HasId(ReadData(file).value, id))
    ensures r.Ok? && r.value.Some? ==>
              var bs := ReadData(file).value;
              var i := FirstIndex(bs, id).value;
              r.value.value == bs[i] && r.value.value.batchId == id
  {
    match ReadData(file)
    case Err(e) => Err(e)
    case Ok(bs) =>
      if !Truthy(id) then Ok(None)
      else
        match FirstIndex(bs, id)
        case None => Ok(None)
        case Some(i) => Ok(Some(bs[i]))
  }

  /** A date as it reads back from the JSON file: its ISO string, or null when invalid. */
  function DateJson(d: Date, iso: int -> string): JsValue {
    match d
    case ValidDate(ms) => Str(iso(ms))
    case InvalidDate => Null
  }

  /** `batch[key]` on a record read back from the file; `iso` is `Date.prototype.toISOString`. */
  function FieldValue(b: BatchRecord, key: string, iso: int -> string): JsValue {
    if key == "farmerName" then b.farmerName
    else if key == "cropName" then b.cropName
    else if key == "quantity" then b.quantity
    else if key == "location" then b.location
    else if key == "harvestDate" then DateJson(b.harvestDate, iso)
    else if key == "batchId" then b.batchId
    else if key == "blockchainHash" then b.blockchainHash
    else if key == "transactionHash" then b.transactionHash
    else if key == "transportStatus" then b.transportStatus
    else if key == "createdAt" then DateJson(ValidDate(b.createdAt), iso)
    else if key == "updatedAt" then DateJson(ValidDate(b.updatedAt), iso)
    else Undefined
  }

  /** The record strictly equals the query on every key. */
  predicate Matches(b: BatchRecord, query: map<string, JsValue>, iso: int -> string) {
    forall k :: k in query ==> FieldValue(b, k, iso) == query[k]
  }

  /** `a` is `b` with some elements dropped, order kept. */
  predicate IsSubsequence(a: seq<BatchRecord>, b: seq<BatchRecord>)
    decreases |b|
  {
    if |a| == 0 then true
    else if |b| == 0 then false
    else if a[0] == b[0] then IsSubsequence(a[1..], b[1..])
    else IsSubsequence(a, b[1..])
  }

  /** `batches.filter(...)` with the strict-equality test on every query key. */
  function Filter(bs: seq<BatchRecord>, query: map<string, JsValue>, iso: int -> string): (r: seq<BatchRecord>)
    ensures forall x :: x in r ==> Matches(x, query, iso)
    ensures forall i :: 0 <= i < |bs| && Matches(bs[i], query, iso) ==> bs[i] in r
    ensures IsSubsequence(r, bs)
    ensures |r| <= |bs|
  {
    if |bs| == 0 then []
    else
      var rest := Filter(bs[1..], query, iso);
      assert forall i :: 1 <= i < |bs| ==> bs[i] == bs[1..][i - 1];
      if Matches(bs[0], query, iso) then [bs[0]] + rest else rest
  }

  /** Filtering one more record at the end adds it exactly when it matches. */
  lemma {:induction false} FilterSnoc(bs: seq<BatchRecord>, x: BatchRecord, query: map<string, JsValue>, iso: int -> string)
    ensures Filter(bs + [x], query, iso) == Filter(bs, query, iso) + (if Matches(x, query, iso) then [x] else [])
    decreases |bs|
  {
    if |bs| == 0 {
      assert bs + [x] == [x];
      assert [x][1..] == [];
    } else {
      assert (bs + [x])[1..] == bs[1..] + [x];
      FilterSnoc(bs[1..], x, query, iso);
    }
  }

  /**
    `Batch.find(query)`: the whole collection for the empty query, otherwise
    the records equal to the query on every key, in stored order.
   */
  function Find(file: DataFile, query: map<string, JsValue>, iso: int -> string): (r: Result<seq<BatchRecord>, StoreError>)
    ensures r.Err? <==> file.Corrupt?
    ensures r.Ok? && |query| == 0 ==> r.value == ReadData(file).value
    ensures r.Ok? ==> IsSubsequence(r.value, ReadData(file).value)
    ensures r.Ok? ==> forall x :: x in r.value ==> Matches(x, query, iso)
    ensures r.Ok? ==>
              var bs := ReadData(file).value;
              forall i :: 0 <= i < |bs| && Matches(bs[i], query, iso) ==> bs[i] in r.value
    ensures r.Ok? ==> r.value == Filter(ReadData(file).value, query, iso)
  {
    match ReadData(file)
    case Err(e) => Err(e)
    case Ok(bs) =>
      if |query| == 0 then
        SubsequenceRefl(bs);
        EmptyQueryFilterIsIdentity(bs, iso);
        Ok(bs)
      else Ok(Filter(bs, query, iso))
  }

  /** Any sequence is a subsequence of itself. */
  lemma {:induction false} SubsequenceRefl(bs: seq<BatchRecord>)
    ensures IsSubsequence(bs, bs)
    decreases |bs|
  {
    if |bs| > 0 {
      SubsequenceRefl(bs[1..]);
    }
  }

  /** The empty-query shortcut agrees with filtering: with no keys to compare, every record matches. */
  lemma {:induction false} EmptyQueryFilterIsIdentity(bs: seq<BatchRecord>, iso: int -> string)
    ensures Filter(bs, map[], iso) == bs
    decreases |bs|
  {
    if |bs| > 0 {
      EmptyQueryFilterIsIdentity(bs[1..], iso);
      assert [bs[0]] + bs[1..] == bs;
    }
  }

  /**
    `batch.save()`: writes only when a stored record already holds the
    instance's `batchId`; then it refreshes `updatedAt`, replaces the first
    such record and rewrites the file. Otherwise nothing is written and the
    instance comes back unchanged.
   */
  function Save(file: DataFile, inst: BatchRecord, now: int): (r: Result<Written, StoreError>)
    ensures r.Err? <==> file.Corrupt?
    ensures r.Ok? ==> (r.value.wrote <==> HasId(ReadData(file).value, inst.batchId))
    ensures r.Ok? && !r.value.wrote ==> r.value.file == file && r.value.batch == inst
    ensures r.Ok? && r.value.wrote ==>
              var bs := ReadData(file).value;
              var i := FirstIndex(bs, inst.batchId).value;
              && r.value.batch == inst.(updatedAt := now)
              && r.value.file.Stored?
              && |r.value.file.batches| == |bs|
              && r.value.file.batches[i] == r.value.batch
              && (forall j :: 0 <= j < |bs| && j != i ==> r.value.file.batches[j] == bs[j])
  {
    match ReadData(file)
    case Err(e) => Err(e)
    case Ok(bs) =>
      match FirstIndex(bs, inst.batchId)
      case None => Ok(Written(file, inst, false))
      case Some(i) =>
        var saved := inst.(updatedAt := now);
        Ok(Written(Stored(bs[i := saved]), saved, true))
  }

  /**
    The save the registration flow evidently intends: replace the first
    record holding the `batchId` as `Save` does, and otherwise append the
    instance, so that a new batch is persisted.
   */
  function SaveOrInsert(file: DataFile, inst: BatchRecord, now: int): (r: Result<Written, StoreError>)
    ensures r.Err? <==> file.Corrupt?
    ensures r.Ok? ==> r.value.wrote && r.value.file.Stored?
    ensures r.Ok? && HasId(ReadData(file).value, inst.batchId) ==> Ok(r.value) == Save(file, inst, now)
    ensures r.Ok? && !HasId(ReadData(file).value, inst.batchId) ==>
              r.value.batch == inst && r.value.file.batches == ReadData(file).value + [inst]
  {
    match ReadData(file)
    case Err(e) => Err(e)
    case Ok(bs) =>
      match FirstIndex(bs, inst.batchId)
      case None => Ok(Written(Stored(bs + [inst]), inst, true))
      case Some(i) =>
        var saved := inst.(updatedAt := now);
        Ok(Written(Stored(bs[i := saved]), saved, true))
  }

  // ---------------------------------------------------------------------
  // What the store operations keep and break

  /** `create` keeps `batchId`s unique exactly when the new id is not stored yet:
      it performs no duplicate check of its own. */
  lemma CreateKeepsUniqueIdsIff(file: DataFile, data: BatchData, t0: int, t1: int)
    requires !file.Corrupt?
    requires UniqueIds(ReadData(file).value)
    ensures UniqueIds(Create(file, data, t0, t1).value.file.batches) <==> !HasId(ReadData(file).value, data.batchId)
  {
  }

  /** Replacing a record by one with the same `batchId` keeps ids unique. */
  lemma SaveKeepsUniqueIds(file: DataFile, inst: BatchRecord, now: int)
    requires !file.Corrupt?
    requires UniqueIds(ReadData(file).value)
    ensures UniqueIds(ReadData(Save(file, inst, now).value.file).value)
  {
  }

  /** The save-or-insert store keeps ids unique unconditionally. */
  lemma SaveOrInsertKeepsUniqueIds(file: DataFile, inst: BatchRecord, now: int)
    requires !file.Corrupt?
    requires UniqueIds(ReadData(file).value)
    ensures UniqueIds(SaveOrInsert(file, inst, now).value.file.batches)
  {
  }

  /** `updatedAt >= createdAt` survives a save whose clock reading is not
      earlier than the instance's creation. */
  lemma SaveKeepsTimestampsOrdered(file: DataFile, inst: BatchRecord, now: int)
    requires !file.Corrupt?
    requires AllTimestampsOrdered(ReadData(file).value)
    requires inst.createdAt <= now
    ensures AllTimestampsOrdered(ReadData(Save(file, inst, now).value.file).value)
    ensures TimestampsOrdered(Save(file, inst, now).value.batch) <==> Save(file, inst, now).value.wrote || TimestampsOrdered(inst)
  {
  }

  /** Updating an existing record and looking it up again returns the saved
      instance; saving an unknown id leaves it unknown. */
  lemma SaveThenFindOne(file: DataFile, inst: BatchRecord, now: int)
    requires !file.Corrupt?
    requires Truthy(inst.batchId)
    ensures var w := Save(file, inst, now).value;
            FindOne(w.file, inst.batchId) == Ok(if w.wrote then Some(w.batch) else None)
  {
  }

  /** With the save-or-insert store, whatever is saved is found again under its id. */
  lemma SaveOrInsertThenFindOne(file: DataFile, inst: BatchRecord, now: int)
    requires !file.Corrupt?
    requires Truthy(inst.batchId)
    ensures var w := SaveOrInsert(file, inst, now).value;
            FindOne(w.file, inst.batchId) == Ok(Some(w.batch))
  {
    var bs := ReadData(file).value;
    var w := SaveOrInsert(file, inst, now).value;
    if HasId(bs, inst.batchId) {
      SaveThenFindOne(file, inst, now);
    } else {
      var after := w.file.batches;
      assert forall j :: 0 <= j < |bs| ==> after[j] == bs[j];
      assert after[|bs|].batchId == inst.batchId;
      var k := FirstIndex(after, inst.batchId).value;
      assert k == |bs|;
    }
  }

  /** After `create`, a lookup of the new id finds the new record only if the id
      was not stored before; otherwise the older record shadows it. */
  lemma CreateThenFindOne(file: DataFile, data: BatchData, t0: int, t1: int)
    requires !file.Corrupt?
    requires Truthy(data.batchId)
    ensures var w := Create(file, data, t0, t1).value;
            var bs := ReadData(file).value;
            FindOne(w.file, data.batchId) ==
              Ok(Some(if HasId(bs, data.batchId) then bs[FirstIndex(bs, data.batchId).value] else w.batch))
  {
  }
}

=== FILE: blockchain_service.dfy ===
/**
  The anchor adapter (server/utils/blockchainService.js): a singleton built
  from three environment variables that either writes `(batchId, hash)` to
  a contract on Polygon or, when it is not configured or the write fails,
  synthesises a Keccak-256 based stand-in transaction hash.
 */
module BlockchainService {
  import opened Outcomes
  import opened JsValues
  import opened Hex

  /** `POLYGON_RPC_URL`, `PRIVATE_KEY` and `BLOCKCHAIN_CONTRACT_ADDRESS`; `None` when unset. */
  datatype ServiceEnv = ServiceEnv(rpcUrl: Option<string>, privateKey: Option<string>, contractAddress: Option<string>)

  /** The service's state: the RPC URL behind the provider, the key behind the wallet, the contract address. */
  datatype Service = Service(provider: Option<string>, wallet: Option<string>, contractAddress: Option<string>)

  /** Truthiness of an environment variable: set and non-empty. */
  predicate IsSet(v: Option<string>) {
    v.Some? && v.value != ""
  }

  /** The constructor: a provider only for a set URL, a wallet only for a set key AND an existing provider. */
  function NewService(env: ServiceEnv): (svc: Service)
    ensures svc.provider.Some? <==> IsSet(env.rpcUrl)
    ensures svc.wallet.Some? <==> IsSet(env.privateKey) && IsSet(env.rpcUrl)
    ensures svc.wallet.Some? ==> svc.provider.Some?
    ensures svc.contractAddress.Some? <==> IsSet(env.contractAddress)
    ensures IsConfigured(svc) <==> IsSet(env.rpcUrl) && IsSet(env.privateKey) && IsSet(env.contractAddress)
  {
    var provider := if IsSet(env.rpcUrl) then env.rpcUrl else None;
    var wallet := if IsSet(env.privateKey) && provider.Some? then env.privateKey else None;
    var address := if IsSet(env.contractAddress) then env.contractAddress else None;
    Service(provider, wallet, address)
  }

  /** `isConfigured()`: provider, wallet and contract address all present. */
  predicate IsConfigured(svc: Service) {
    svc.provider.Some? && svc.wallet.Some? && IsSet(svc.contractAddress)
  }

  /** Configuration is what lets either operation reach the contract: a mined
      write is reported as a real (non-fallback) transaction, and a returned
      read as a success, exactly on a configured service. */
  lemma ConfigurationGatesTheChain(svc: Service, batchId: string, hash: string, now: int,
                                   keccak256: string -> Digest, txHash: string, storedHash: string)
    ensures IsConfigured(svc) <==> !StoreBatchOnChain(svc, batchId, hash, now, keccak256, Mined(txHash)).fallbackUsed
    ensures IsConfigured(svc) <==> VerifyBatchOnChain(svc, batchId, Returned(storedHash)).success
  {
  }

  const PlaceholderAddress := "0xContractAddressPlaceholder"
  const ErrorSuffix := "-error"
  const ExplorerPrefix := "https://amoy.polygonscan.com/tx/"
  const NotConfiguredMessage := "Blockchain not configured"

  /** What `contract.storeBatch(...)` followed by `tx.wait()` came to. */
  datatype ChainWrite = Mined(txHash: string) | WriteFailed(message: string)

  /** What `contract.getBatchHash(batchId)` came to. */
  datatype ChainRead = Returned(storedHash: string) | ReadFailed(message: string)

  /** The object `storeBatchOnChain` resolves with. */
  datatype AnchorResult = AnchorResult(
    success: bool,
    transactionHash: string,
    contractAddress: string,
    fallbackUsed: bool,
    error: Option<string>)

  /** The object `verifyBatchOnChain` resolves with; `exists` (here `found`) and `storedHash` only on success. */
  datatype VerifyResult = VerifyResult(
    success: bool,
    found: Option<bool>,
    storedHash: Option<string>,
    error: Option<string>)

  /** `${batchId}-${hash}-${Date.now()}`, with `-error` appended after a failed write. */
  function FallbackPreimage(batchId: string, hash: string, now: int, failed: bool): string {
    batchId + "-" + hash + "-" + IntToDecimal(now) + (if failed then ErrorSuffix else "")
  }

  /** `0x${keccak256(toUtf8Bytes(preimage)).slice(2, 66)}`: ethers returns `0x` and
      64 hex digits, and the slice keeps exactly the digits. */
  function MockTransactionHash(preimage: string, keccak256: string -> Digest): (r: string)
    ensures |r| == 66 && r[..2] == "0x"
    ensures IsLowerHex(r[2..])
    ensures Decode(r[2..]) == Some(keccak256(preimage))
  {
    var digest := keccak256(preimage);
    var full := "0x" + Encode(digest);
    DecodeEncode(digest);
    assert full[2..66] == Encode(digest);
    "0x" + full[2..66]
  }

  /**
    `storeBatchOnChain(batchId, hash)`: three branches. Unconfigured: no
    contract call, a mock hash and the placeholder address when none is set.
    Configured and mined: the real transaction hash. Configured and the call
    or the wait throws: a mock hash over the `-error` preimage, with the
    error message. It never throws and always reports success.
   */
  function StoreBatchOnChain(svc: Service, batchId: string, hash: string, now: int,
                             keccak256: string -> Digest, chain: ChainWrite): (r: AnchorResult)
    ensures r.success
    ensures !r.fallbackUsed <==> IsConfigured(svc) && chain.Mined?
    ensures !r.fallbackUsed ==> r.transactionHash == chain.txHash && r.error == None
    ensures r.fallbackUsed ==>
              r.transactionHash == MockTransactionHash(FallbackPreimage(batchId, hash, now, IsConfigured(svc)), keccak256)
    ensures r.fallbackUsed ==> |r.transactionHash| == 66 && r.transactionHash[..2] == "0x"
    ensures r.error.Some? <==> IsConfigured(svc) && chain.WriteFailed?
    ensures r.error.Some? ==> r.error.value == chain.message
    ensures IsConfigured(svc) ==> r.contractAddress == svc.contractAddress.value
    ensures IsSet(svc.contractAddress) ==> r.contractAddress == svc.contractAddress.value
    ensures !IsSet(svc.contractAddress) ==> r.contractAddress == PlaceholderAddress
  {
    if !IsConfigured(svc) then
      var address := if IsSet(svc.contractAddress) then svc.contractAddress.value else PlaceholderAddress;
      AnchorResult(true, MockTransactionHash(FallbackPreimage(batchId, hash, now, false), keccak256), address, true, None)
    else
      match chain
      case Mined(tx) => AnchorResult(true, tx, svc.contractAddress.value, false, None)
      case WriteFailed(msg) =>
        AnchorResult(true, MockTransactionHash(FallbackPreimage(batchId, hash, now, true), keccak256),
                     svc.contractAddress.value, true, Some(msg))
  }

  /** The preimage of a failed write never coincides with the preimage of an
      unconfigured fallback, whatever the ids, hashes and clock readings: the
      former ends in `-error`, the latter in a digit of the timestamp. */
  lemma FallbackPreimagesDiffer(b1: string, h1: string, t1: int, b2: string, h2: string, t2: int)
    ensures FallbackPreimage(b1, h1, t1, false) != FallbackPreimage(b2, h2, t2, true)
  {
    var plain := FallbackPreimage(b1, h1, t1, false);
    var failed := FallbackPreimage(b2, h2, t2, true);
    var digits := IntToDecimal(t1);
    assert plain[|plain| - 1] == digits[|digits| - 1];
    assert failed[|failed| - 1] == 'r';
  }

  /**
    `verifyBatchOnChain(batchId)`: fails when unconfigured or when the read
    throws; otherwise succeeds and `exists` (`found`) says whether the stored hash is
    non-empty.
   */
  function VerifyBatchOnChain(svc: Service, batchId: string, read: ChainRead): (r: VerifyResult)
    ensures r.success <==> IsConfigured(svc) && read.Returned?
    ensures r.success ==> r.storedHash == Some(read.storedHash) && r.error == None
    ensures r.success ==> r.found.Some? && (r.found.value <==> read.storedHash != "")
    ensures !r.success ==> r.found == None && r.storedHash == None && r.error.Some?
    ensures !IsConfigured(svc) ==> r.error == Some(NotConfiguredMessage)
    ensures IsConfigured(svc) && read.ReadFailed? ==> r.error == Some(read.message)
  {
    if !IsConfigured(svc) then VerifyResult(false, None, None, Some(NotConfiguredMessage))
    else
      match read
      case Returned(h) => VerifyResult(true, Some(h != ""), Some(h), None)
      case ReadFailed(msg) => VerifyResult(false, None, None, Some(msg))
  }

  /** `getExplorerUrl(transactionHash)`: null for a falsy hash, else the Amoy explorer link. */
  function GetExplorerUrl(transactionHash: JsValue): (r: Option<string>)
    ensures r.None? <==> !Truthy(transactionHash)
    ensures r.Some? ==> |r.value| > |ExplorerPrefix| && r.value[..|ExplorerPrefix|] == ExplorerPrefix
    ensures r.Some? ==> r.value[|ExplorerPrefix|..] == ToStr(transactionHash)
  {
    if !Truthy(transactionHash) then None else Some(ExplorerPrefix + ToStr(transactionHash))
  }
}

=== FILE: blockchain_simulator.dfy ===
/**
  The content fingerprint: the SHA-256 digest of a string, spelled in
  lowercase hex (server/utils/blockchainSimulator.js).
 */
module BlockchainSimulator {
  import opened Outcomes
  import opened JsValues
  import opened Hex

  /** What `hash.update(data)` throws when `data` is not a string. */
  datatype HashError = InvalidArgType(message: string)

  const InvalidArgMessage := "The \"data\" argument must be of type string or an instance of Buffer, TypedArray, or DataView."

  /**
    `generateBlockchainHash(data)`: SHA-256 over the UTF-8 bytes of `data`
    (the `sha256` parameter, which takes the string and includes the
    encoding step), with no salt, hex-encoded. A non-string argument makes
    `update` throw, and the promise rejects instead of resolving.
   */
  function GenerateBlockchainHash(data: JsValue, sha256: string -> Digest): (r: Result<string, HashError>)
    ensures r.Ok? <==> data.Str?
    ensures r.Ok? ==> |r.value| == 64 && IsLowerHex(r.value)
    ensures r.Ok? ==> Decode(r.value) == Some(sha256(data.s))
  {
    match data
    case Str(s) =>
      var digest := sha256(s);
      DecodeEncode(digest);
      Ok(Encode(digest))
    case _ => Err(InvalidArgType(InvalidArgMessage))
  }

  /** The hex spelling is injective, so two fingerprints agree exactly when
      the underlying SHA-256 digests do. */
  lemma FingerprintsAgreeIffDigestsAgree(a: string, b: string, sha256: string -> Digest)
    ensures GenerateBlockchainHash(Str(a), sha256) == GenerateBlockchainHash(Str(b), sha256)
            <==> sha256(a) == sha256(b)
  {
  }
}

=== FILE: hex.dfy ===
/**
  Bytes, 256-bit digests and their lowercase hexadecimal spelling, as
  produced by Node's `digest('hex')` and by ethers' `keccak256`.
 */
module Hex {
  import opened Outcomes

  newtype byte = b: int | 0 <= b < 256

  /** Thirty-two zero bytes; only used as the witness for `Digest`. */
  function ZeroDigest(): (d: seq<byte>)
    ensures |d| == 32
  {
    seq(32, i => 0)
  }

  /** The output of a 256-bit hash function (SHA-256, Keccak-256). */
  type Digest = d: seq<byte> | |d| == 32 witness ZeroDigest()

  predicate IsHexChar(c: char) {
    '0' <= c <= '9' || 'a' <= c <= 'f'
  }

  predicate IsLowerHex(s: string) {
    forall i :: 0 <= i < |s| ==> IsHexChar(s[i])
  }

  function HexChar(nibble: int): (c: char)
    requires 0 <= nibble < 16
    ensures IsHexChar(c)
  {
    if nibble < 10 then ('0' as int + nibble) as char else ('a' as int + nibble - 10) as char
  }

  /** Inverse of `HexChar` on the sixteen lowercase hex digits. */
  function NibbleOf(c: char): (r: Option<int>)
    ensures r.Some? <==> IsHexChar(c)
    ensures r.Some? ==> 0 <= r.value < 16 && HexChar(r.value) == c
  {
    if '0' <= c <= '9' then Some(c as int - '0' as int)
    else if 'a' <= c <= 'f' then Some(c as int - 'a' as int + 10)
    else None
  }

  /** Lowercase hex, two characters per byte, high nibble first. */
  function Encode(bs: seq<byte>): (r: string)
    ensures |r| == 2 * |bs|
    ensures IsLowerHex(r)
  {
    if |bs| == 0 then ""
    else [HexChar(bs[0] as int / 16), HexChar(bs[0] as int % 16)] + Encode(bs[1..])
  }

  /** Parses lowercase hex back into bytes; `None` on an odd length or a non-hex character. */
  function Decode(s: string): (r: Option<seq<byte>>)
    decreases |s|
  {
    if |s| == 0 then Some([])
    else if |s| == 1 then None
    else
      match (NibbleOf(s[0]), NibbleOf(s[1]), Decode(s[2..]))
      case (Some(hi), Some(lo), Some(rest)) => Some([(hi * 16 + lo) as byte] + rest)
      case _ => None
  }

  /** Hex encoding loses nothing: decoding it gives the bytes back. */
  lemma {:induction false} DecodeEncode(bs: seq<byte>)
    ensures Decode(Encode(bs)) == Some(bs)
    decreases |bs|
  {
    if |bs| > 0 {
      var e := Encode(bs);
      var hi := bs[0] as int / 16;
      var lo := bs[0] as int % 16;
      assert e[2..] == Encode(bs[1..]);
      assert NibbleOf(e[0]) == Some(hi);
      assert NibbleOf(e[1]) == Some(lo);
      DecodeEncode(bs[1..]);
      assert [bs[0]] + bs[1..] == bs;
    }
  }
}

=== FILE: js_values.dfy ===
/**
  The JavaScript values that reach the ledger through a JSON request body,
  together with the two coercions the source relies on: truthiness (`!x`)
  and the string form a template literal (`${x}`) produces.
 */
module JsValues {

  /** `Number.MAX_SAFE_INTEGER`, 2^53 - 1. */
  const MaxSafeInteger := 9007199254740991

  /** The integers a double holds exactly and JavaScript prints digit for
      digit; above 2^53 the printed form is the shortest round-tripping
      spelling, padded with zeros, which this model does not follow. */
  type SafeInt = n: int | -MaxSafeInteger <= n <= MaxSafeInteger

  /** A JSON-level value. Numbers are safe integers; fractional numbers,
      arrays and objects are not modelled. */
  datatype JsValue = Undefined | Null | Bool(b: bool) | Num(n: SafeInt) | Str(s: string)

  /** JavaScript truthiness: `undefined`, `null`, `false`, `0` and `""` are falsy. */
  predicate Truthy(v: JsValue) {
    match v
    case Undefined => false
    case Null => false
    case Bool(b) => b
    case Num(n) => n != 0
    case Str(s) => s != ""
  }

  predicate IsDigit(c: char) {
    '0' <= c <= '9'
  }

  predicate AllDigits(s: string) {
    forall i :: 0 <= i < |s| ==> IsDigit(s[i])
  }

  /** The canonical spelling of a number: at least one digit, and a leading
      zero only in "0" itself. */
  predicate IsCanonicalDecimal(s: string) {
    |s| >= 1 && AllDigits(s) && (|s| > 1 ==> s[0] != '0')
  }

  function DigitChar(d: int): (c: char)
    requires 0 <= d < 10
    ensures IsDigit(c)
  {
    ('0' as int + d) as char
  }

  /** Decimal digits of a natural number, most significant first, no leading zeros. */
  function NatToDecimal(n: nat): (r: string)
    ensures IsCanonicalDecimal(r)
    decreases n
  {
    if n < 10 then [DigitChar(n)] else NatToDecimal(n / 10) + [DigitChar(n % 10)]
  }

  /** The value a string of decimal digits denotes; the reference reading of `NatToDecimal`. */
  function DecimalValue(s: string): nat
    requires AllDigits(s)
    decreases |s|
  {
    if |s| == 0 then 0
    else
      assert IsDigit(s[|s| - 1]);
      10 * DecimalValue(s[..|s| - 1]) + (s[|s| - 1] as int - '0' as int)
  }

  /** Reading back the digits `NatToDecimal` writes yields the original number. */
  lemma {:induction false} DecimalRoundTrip(n: nat)
    ensures DecimalValue(NatToDecimal(n)) == n
    decreases n
  {
    if n >= 10 {
      var r := NatToDecimal(n);
      DecimalRoundTrip(n / 10);
      assert r[..|r| - 1] == NatToDecimal(n / 10);
    }
  }

  /** Digits that do not start with `0` denote a positive number. */
  lemma {:induction false} LeadingDigitPositive(s: string)
    requires |s| >= 1 && AllDigits(s) && s[0] != '0'
    ensures DecimalValue(s) >= 1
    decreases |s|
  {
    if |s| > 1 {
      LeadingDigitPositive(s[..|s| - 1]);
    }
  }

  /** Two canonical spellings with the same value are the same string, so
      `NatToDecimal` is THE canonical spelling of a number. */
  lemma {:induction false} CanonicalDecimalUnique(s: string, n: nat)
    requires IsCanonicalDecimal(s) && DecimalValue(s) == n
    ensures s == NatToDecimal(n)
    decreases |s|
  {
    var last := s[|s| - 1] as int - '0' as int;
    var front := s[..|s| - 1];
    assert DecimalValue(s) == 10 * DecimalValue(front) + last;
    if |s| == 1 {
      assert n == last && n < 10;
      assert s == [DigitChar(n)];
    } else {
      assert front[0] == s[0];
      LeadingDigitPositive(front);
      assert n >= 10;
      assert n / 10 == DecimalValue(front) && n % 10 == last;
      CanonicalDecimalUnique(front, n / 10);
      assert s == front + [s[|s| - 1]];
    }
  }

  /** `String(n)` for an integer `n`: the canonical digits of `|n|`, after a
      `-` for negatives. */
  function IntToDecimal(n: int): (r: string)
    ensures |r| >= 1 && IsDigit(r[|r| - 1])
    ensures n >= 0 ==> IsCanonicalDecimal(r) && DecimalValue(r) == n
    ensures n < 0 ==> r[0] == '-' && IsCanonicalDecimal(r[1..]) && DecimalValue(r[1..]) == -n
  {
    if n < 0 then
      DecimalRoundTrip(-n);
      var r := "-" + NatToDecimal(-n);
      assert r[1..] == NatToDecimal(-n);
      r
    else
      DecimalRoundTrip(n);
      NatToDecimal(n)
  }

  /** The string a template literal `${v}` inserts for `v`. */
  function ToStr(v: JsValue): (r: string)
    ensures r == "" <==> v == Str("")
    ensures v.Str? ==> r == v.s
    ensures v.Num? && v.n >= 0 ==> IsCanonicalDecimal(r) && DecimalValue(r) == v.n
    ensures v.Num? && v.n < 0 ==> |r| >= 2 && r[0] == '-' && IsCanonicalDecimal(r[1..]) && DecimalValue(r[1..]) == -v.n
    ensures v.Bool? ==> r == (if v.b then "true" else "false")
    ensures v.Null? ==> r == "null"
    ensures v.Undefined? ==> r == "undefined"
  {
    match v
    case Undefined => "undefined"
    case Null => "null"
    case Bool(b) => if b then "true" else "false"
    case Num(n) => IntToDecimal(n)
    case Str(s) => s
  }

  /** Two numbers print alike only when they are equal: the spelling a
      template literal gives a number determines the number. */
  lemma NumberSpellingInjective(m: SafeInt, n: SafeInt)
    ensures ToStr(Num(m)) == ToStr(Num(n)) <==> m == n
  {
  }
}

=== FILE: outcomes.dfy ===
/** Failure-carrying wrappers shared by the ledger modules. */
module Outcomes {

  /** A value that may be absent; stands in for JavaScript's `null` result. */
  datatype Option<+T> = None | Some(value: T)

  /** Either a value, or the error a JavaScript call would have thrown or rejected with. */
  datatype Result<+T, +E> = Ok(value: T) | Err(error: E)
}
